=== FILE: README.md ===
# Task manager client: functional core

This project models the logic of a small React + Supabase task tracker as pure Dafny functions,
and proves properties about them. The tracker's labels and messages are Indonesian. The modelled parts are:

- the remaining-time label of a deadline ("Tenggat waktu terlewat", "Hari ini", "1 hari lagi",
  "n hari lagi") and the deadline colour of a task row;
- the task manager's list transitions: fetch, add, toggle, delete and edit, each applied only
  after the store has confirmed it, plus the derived statistics;
- the task list's split into active and completed sections and the branch it renders;
- the edit dialog's form: loading a task, the blank-title guard, trimming, and the `null` deadline;
- the profile button's display name, initial and greeting.

The current time and the store's replies are inputs. A reply is a `Result`/`Outcome` value, so
every success and error path is a case of a total function.

| module | file | models |
|---|---|---|
| `Wrappers` | wrappers.dfy | `Option`, `Result`, `Outcome` |
| `Seqs` | seqs.dfy | order-preserving `filter` and its algebra |
| `Text` | text.dfy | `trim`, `split(sep)[0]`, ASCII `toUpperCase`, decimal rendering |
| `Tasks` | tasks.dfy | the task row, deadline truthiness, the completed/incomplete filters |
| `DateUtils` | dateutils.dfy | `formatRemainingTime` |
| `TaskItem` | taskitem.dfy | `getDeadlineColor` and the date text class |
| `TaskManager` | taskmanager.dfy | state, `taskStats`, the five handlers, the edit target |
| `ComponentTaskManager` | componenttaskmanager.dfy | the older component's copy of `formatRemainingTime` |
| `TaskList` | tasklist.dfy | sections and branch selection |
| `EditTask` | edittask.dfy | the edit form |
| `UserProfile` | userprofile.dfy | display name, initial, greeting |

Modelling choices:

- **Time.** Times are integer milliseconds. `new Date(s).getTime()` is a function parameter
  `instant: string -> int`, and `now` is a parameter.
- **Day count.** `DateUtils.DayCount` computes the exact real quotient and rounds it up, as
  `Math.ceil` does, and is proved equal to integer ceiling division.
- **Deadline truthiness.** `null` and `""` both count as "no deadline". This follows `!deadline`
  in the source.
- **Duplicate component.** src/components/TaskManager.tsx repeats the mounted
  src/TaskManager.tsx handler for handler. The same `TaskManager` members model both files.
  Its local `formatRemainingTime` is modelled separately and proved to agree with the shared one.

Behaviour of the code worth knowing:

- Requests are not scoped by owner: update and delete filter on `id` only.
- The statistics are total, completed and remaining; there is no completion rate.
- `add` prepends the returned row without checking `created_at` order.
- A deadline 25 hours ahead reads "2 hari lagi", because `Math.ceil(25/24)` is 2
  (`TaskItem.TwentyFiveHoursAhead`).
- Day counts run in 24-hour windows from `now`, not by calendar day. A deadline passed less than a
  day ago is labelled "Hari ini" (the count is `-0`, and `-0 === 0`), while its colour is already red.

## Model

| member | source | states |
|---|---|---|
| `DateUtils.Ceil` | src/utils/dateUtils.ts:7 | the result is the least integer not below the quotient |
| `DateUtils.DayCount` | src/utils/dateUtils.ts:6-7 | the day count n satisfies 86 400 000·(n−1) < deadline − now ≤ 86 400 000·n |
| `DateUtils.DayCountIsCeilDiv` | src/utils/dateUtils.ts:7 | the rounded-up real quotient equals integer ceiling division by one day |
| `DateUtils.DayCountMonotone` | src/utils/dateUtils.ts:7 | a later deadline never gives a smaller day count |
| `DateUtils.Classify` | src/utils/dateUtils.ts:9-12 | overdue exactly when diff ≤ −1 day; "Hari ini" exactly when −1 day < diff ≤ 0; "1 hari lagi" exactly when 0 < diff ≤ 1 day; "n hari lagi" exactly when diff > 1 day, with n ≥ 2 the ceiling of diff/day; the four cases cover every diff |
| `DateUtils.FormatRemainingTime` | src/utils/dateUtils.ts:2-12 | the empty label exactly for a null or empty deadline; otherwise the label of deadline − now |
| `DateUtils.LabelText` | src/utils/dateUtils.ts:9-12 | the text is empty exactly for the no-deadline label; the one-day and n-day labels are the plain decimal rendering of 1 and of n (no leading zeros), followed by " hari lagi" |
| `DateUtils.LabelTextInjective` | src/utils/dateUtils.ts:9-12 | distinct labels render as distinct strings |
| `Text.Decimal` | src/utils/dateUtils.ts:12 | the rendering of a day count is a non-empty string of decimal digits that starts with 0 only for zero |
| `Text.DecimalRoundTrip` | src/utils/dateUtils.ts:12 | reading back the rendered day count gives the count |
| `ComponentTaskManager.FormatRemainingTime` | src/components/TaskManager.tsx:17-28 | no label exactly without a deadline; otherwise overdue, "Hari ini", "1 hari lagi" and "n hari lagi" on the same millisecond thresholds as the shared utility |
| `ComponentTaskManager.SameLabelAsDateUtils` | src/components/TaskManager.tsx:17-28 | the component's local copy gives the same label as the shared utility for every deadline and every now |
| `TaskItem.DeadlineColor` | src/components/TaskItem.tsx:19-30 | gray exactly without a deadline; red exactly when diff < 0; orange exactly when 0 ≤ diff < 24 h; green exactly when diff ≥ 24 h |
| `TaskItem.Classes` | src/components/TaskItem.tsx:20-29 | the class string starts with the text colour class and is exactly that class for gray only |
| `TaskItem.TextClass` | src/components/TaskItem.tsx:81 | the first space-separated class is the text colour class; it is the whole class string exactly for gray |
| `TaskItem.ColourMonotone` | src/components/TaskItem.tsx:27-29 | a later deadline is never more urgent: red, then orange, then green |
| `TaskItem.ColourAgreesWithLabel` | src/components/TaskItem.tsx:24-29 | overdue is red, "n hari lagi" is green, "Hari ini" is never green, and a deadline passed by less than a day is red while labelled "Hari ini" |
| `TaskItem.TwentyFiveHoursAhead` | src/components/TaskItem.tsx:25-29 | a deadline 25 hours ahead is labelled "2 hari lagi" and shown green |
| `Tasks.DonePendingPartition` | src/components/TaskList.tsx:18-19 | the completed and incomplete filters hold only tasks of their kind, miss none, and together are a permutation of the list |
| `TaskManager.Mount` | src/TaskManager.tsx:13-17 | on mount the list is loading, nothing is edited, the counters read 0/0/0 and the empty add form cannot add anything |
| `TaskManager.TaskStats` | src/TaskManager.tsx:38-43 | total is the list length, completed counts completed tasks, remaining counts incomplete ones, and 0 ≤ completed ≤ total = completed + remaining |
| `TaskManager.BeginFetch` | src/TaskManager.tsx:21 | the fetch starts by setting loading and changes nothing else |
| `TaskManager.FinishFetch` | src/TaskManager.tsx:27-32 | success replaces the list wholesale; an error keeps the previous list; loading ends in both cases; nothing else changes |
| `TaskManager.Fetch` | src/TaskManager.tsx:20-33 | after the fetch loading is off; success installs the answer, an error keeps the previous list; nothing else changes |
| `TaskManager.FetchIdempotent` | src/TaskManager.tsx:20-33 | refreshing twice with the same answer gives the same state as refreshing once |
| `TaskManager.FetchForgetsPrevious` | src/TaskManager.tsx:30 | after a successful fetch the state does not depend on the previous list or loading flag |
| `TaskManager.AddRequest` | src/TaskManager.tsx:47-54 | no store call exactly when the title is blank; otherwise the insert carries the untrimmed title and the deadline field, with an empty field sent as null |
| `TaskManager.AddTask` | src/TaskManager.tsx:45-65 | a blank title or an error leaves the state unchanged; success puts the returned row first, keeps the old list behind it in order, and clears the form |
| `TaskManager.AddTaskStats` | src/components/TaskManager.tsx:57-83 | a successful add raises the total by one and the completed count by one exactly when the new row is completed |
| `TaskManager.AddThenDelete` | src/components/TaskManager.tsx:64-111 | deleting a freshly added row whose id is new restores the list from before the add |
| `TaskManager.Flip` | src/TaskManager.tsx:78 | the flipped record differs from the original only in a negated completed flag |
| `TaskManager.ToggleById` | src/TaskManager.tsx:77-79 | the length is kept, no field but completed changes, and the flag changes exactly on records with the given id |
| `TaskManager.ToggleRequest` | src/TaskManager.tsx:68-71 | the update targets the task's id with the negation of its completed flag |
| `TaskManager.ToggleComplete` | src/TaskManager.tsx:67-82 | an error leaves the state unchanged; success flips completed on exactly the records with the task's id and changes nothing else |
| `TaskManager.ToggleByIdTwice` | src/TaskManager.tsx:78 | toggling the same id twice restores the list |
| `TaskManager.ToggleTwice` | src/components/TaskManager.tsx:86-101 | two successful toggles of the same task restore the state, because each flip negates the record's own flag |
| `TaskManager.WithoutId` | src/TaskManager.tsx:90 | no record with the id remains, and every record with another id stays |
| `TaskManager.DeleteTask` | src/TaskManager.tsx:84-92 | an error leaves the state unchanged; success makes the list the order-preserving filter of the records without the id: none with the id remains, every other one stays, nothing is added, and nothing else changes |
| `TaskManager.WithoutIdConcat` | src/TaskManager.tsx:90 | deletion keeps the survivors in their relative order |
| `TaskManager.DeleteIdempotent` | src/components/TaskManager.tsx:103-111 | deleting the same id twice is deleting it once |
| `TaskManager.DeleteAbsent` | src/TaskManager.tsx:90 | deleting an id no record has leaves the list unchanged |
| `TaskManager.ReplaceById` | src/TaskManager.tsx:110 | the length is kept; records with the edited id become the returned row and the others are unchanged |
| `TaskManager.UpdateRequest` | src/TaskManager.tsx:95-105 | no store call exactly when nothing is being edited or the title is blank; otherwise the update targets the edited task's id with the given title and deadline |
| `TaskManager.UpdateTask` | src/TaskManager.tsx:94-113 | an early return, an error or an empty answer keeps both the list and the edit target; a returned row replaces exactly the records with the edited id, keeps the length and the other records, and clears the edit target |
| `TaskManager.ReplaceByIdIdempotent` | src/TaskManager.tsx:110 | replacing twice by the same id with the same row is replacing once, whatever the row's id |
| `TaskManager.DeleteAfterChange` | src/components/TaskManager.tsx:113-131 | editing or toggling a record and then deleting its id gives the same list as deleting it straight away |
| `TaskManager.BuyMilkScenario` | src/TaskManager.tsx:45-82 | adding "Buy milk" to an empty list gives one record with stats 1/0/1; toggling it gives the completed record with stats 1/1/0 |
| `TaskManager.StartEdit` | src/TaskManager.tsx:175 | choosing a task to edit sets the edit target and nothing else |
| `TaskManager.CloseEdit` | src/TaskManager.tsx:186 | closing the dialog clears the edit target and nothing else |
| `TaskList.Render` | src/components/TaskList.tsx:18-107 | the spinner exactly while loading; the empty state exactly when not loading with no tasks; otherwise the incomplete and completed sections, each shown when non-empty, at least one shown, and never the all-done note |
| `TaskList.MountShowsSpinner` | src/components/TaskList.tsx:21-28 | on mount the list shows the spinner and the counters read zero |
| `TaskList.SectionsPartition` | src/components/TaskList.tsx:18-19 | the sections hold only tasks of their kind and together hold each task exactly once |
| `TaskList.SectionVisibility` | src/components/TaskList.tsx:49-92 | a section is shown exactly when some task belongs in it |
| `TaskList.SectionsKeepOrder` | src/components/TaskList.tsx:18-19 | both sections keep the list's relative order |
| `TaskList.SectionCountsMatchStats` | src/components/TaskList.tsx:54-77 | the section headings count what remaining and completed count, and they sum to the total |
| `EditTask.EmptyForm` | src/components/EditTask.tsx:35-36 | both fields start empty, so the save button starts disabled and submitting saves nothing |
| `EditTask.ToDateTimeLocal` | src/components/EditTask.tsx:14-20 | a null or empty deadline gives the empty field |
| `EditTask.LoadTask` | src/components/EditTask.tsx:38-43 | a task fills the title field with its title and the deadline field from its deadline; no task leaves the form as it was |
| `EditTask.Submit` | src/components/EditTask.tsx:45-50 | something is saved exactly when the title is not blank; the saved title is the trimmed form title, non-empty, with no whitespace at either end; an empty deadline is saved as null and any other is passed unchanged |
| `EditTask.SaveUnchanged` | src/components/EditTask.tsx:38-50 | opening a task with an already-trimmed title and saving unchanged sends that title back, and a missing deadline back as null |
| `EditTask.SubmitDisabled` | src/components/EditTask.tsx:148 | the save button is disabled exactly when the title is all whitespace |
| `EditTask.DisabledIffNothingSaved` | src/components/EditTask.tsx:148 | the save button is disabled exactly when submitting would save nothing |
| `EditTask.SavedEditReachesStore` | src/components/EditTask.tsx:47-48 | while a task is being edited, whatever the dialog saves passes the task manager's blank-title guard |
| `Text.Trim` | src/components/EditTask.tsx:48 | the result has no whitespace at either end and is the infix left after stripping whitespace-only ends |
| `Text.TrimEmptyIffBlank` | src/TaskManager.tsx:47 | trimming leaves nothing exactly when every character is whitespace |
| `Text.TrimIdempotent` | src/components/EditTask.tsx:48 | trimming twice is trimming once |
| `Text.FirstField` | src/components/UserProfile.tsx:40 | the result is a prefix without the separator, ending at the first separator or at the end |
| `UserProfile.DisplayName` | src/components/UserProfile.tsx:39-40 | a non-empty full name is used; otherwise the email's text before its first '@' (all of it without one) when non-empty; otherwise "User"; the name is never empty |
| `UserProfile.Initial` | src/components/UserProfile.tsx:41 | exactly one character: the upper-cased first character of the display name |
| `Text.ToUpper` | src/components/UserProfile.tsx:41 | an ASCII lower-case letter becomes its upper-case letter; any other character is kept (weaker than JavaScript's full case mapping, see "Left out") |
| `UserProfile.GreetingName` | src/components/UserProfile.tsx:54 | the display name's prefix before its first space, or the whole name without one |
| `UserProfile.Greeting` | src/components/UserProfile.tsx:54 | the greeting is "Hai, " followed by that word |

## Left out

- Network and store calls (src/lib/supabase.ts, every `supabase.from(...)` chain) are not modelled. Their replies are inputs. `supabase.ts` only supplies the shape of the task row.
- Store-side failures such as a missing row are not distinguished. An error reply leaves the task list unchanged; a failed fetch still ends loading.
- React state, effects, rendering and JSX are not modelled. Each handler is one pure transition on an explicit `State`.
- The race where `setTasks([data, ...tasks])` uses a captured, possibly stale list is left out. It is an artefact of asynchronous scheduling.
- Date parsing and locale formatting are parameters, not models. This covers `new Date`, `toLocaleString`/`toLocaleDateString`, and the timezone shift plus `toISOString().slice(0, 16)` in `toDateTimeLocal`. Invalid dates (NaN) are not modelled.
- Floating-point rounding is not modelled. Quotients are exact reals. For integer millisecond differences within JavaScript's safe range, rounding cannot move a quotient across an integer, so the labels and colours agree.
- Console logging on errors is not modelled.
- The sign-in forms (src/components/AuthModal.tsx, src/components/Auth/Login.tsx) and the session context they call are not part of this model.
- The profile's click-outside listener and `signOut` are not part of this model.
- src/App.tsx is wiring only and is not modelled.
- Text.ToUpper: maps only the ASCII letters a–z. JavaScript's `toUpperCase` also maps non-ASCII letters (é becomes É) and can expand one character to several (ß becomes "SS"); the model keeps every such character unchanged.
- UserProfile.Initial: upper-cases only the ASCII letters a–z. JavaScript's full Unicode case mapping can expand one character to several (ß becomes "SS"), and `charAt` works on UTF-16 code units. Neither is modelled, so the one-character result holds only in the model.
- Text.IsWhitespace: lists the ECMAScript WhiteSpace and LineTerminator code points as of the Unicode version current when written. Later Unicode space separators are not tracked.

=== FILE: componenttaskmanager.dfy ===
/**
 The older task manager component carries its own copy of the remaining-time label. Its handlers
 and statistics are the same code as the mounted task manager and are modelled there.
 */
module ComponentTaskManager {
  import opened Wrappers
  import opened Tasks
  import DateUtils

  /**
   The component's local `formatRemainingTime`: no label without a deadline, otherwise the label
   picked by the day thresholds on the distance from `now` to the deadline.
   */
  function FormatRemainingTime(deadline: Option<string>, instant: string -> int, now: int): (l: DateUtils.Label)
    ensures l == DateUtils.NoLabel <==> !HasDeadline(deadline)
    ensures HasDeadline(deadline) ==>
      var diff := instant(deadline.value) - now;
      && (l == DateUtils.Overdue <==> diff <= -DateUtils.MsPerDay)
      && (l == DateUtils.DueToday <==> -DateUtils.MsPerDay < diff <= 0)
      && (l == DateUtils.OneDayLeft <==> 0 < diff <= DateUtils.MsPerDay)
      && (l.DaysLeft? <==> diff > DateUtils.MsPerDay)
  {
    if !HasDeadline(deadline) then DateUtils.NoLabel
    else
      var diffInDays := DateUtils.DayCount(instant(deadline.value) - now);
      if diffInDays < 0 then DateUtils.Overdue
      else if diffInDays == 0 then DateUtils.DueToday
      else if diffInDays == 1 then DateUtils.OneDayLeft
      else DateUtils.DaysLeft(diffInDays)
  }

  /** The local copy labels every deadline at every instant exactly as the shared utility does. */
  lemma SameLabelAsDateUtils(deadline: Option<string>, instant: string -> int, now: int)
    ensures FormatRemainingTime(deadline, instant, now) == DateUtils.FormatRemainingTime(deadline, instant, now)
  {
  }
}

=== FILE: dateutils.dfy ===
/** The remaining-time label shown next to a task's deadline. */
module DateUtils {
  import opened Wrappers
  import opened Tasks
  import Text

  /** `1000 * 60 * 60 * 24`: milliseconds in a day. */
  const MsPerDay: int := 1000 * 60 * 60 * 24

  /** `Math.ceil` on an exact quotient: the least integer not below `x`. */
  function Ceil(x: real): (n: int)
    ensures (n - 1) as real < x <= n as real
  {
    -((-x).Floor)
  }

  /** The day count: the millisecond difference divided by a day, rounded up as `Math.ceil` does. */
  function DayCount(diffMs: int): (days: int)
    ensures MsPerDay * (days - 1) < diffMs <= MsPerDay * days
  {
    var q := diffMs as real / MsPerDay as real;
    var n := Ceil(q);
    assert (n - 1) as real * MsPerDay as real < diffMs as real <= n as real * MsPerDay as real;
    n
  }

  /** The day count agrees with ceiling division over the integers. */
  lemma DayCountIsCeilDiv(diffMs: int)
    ensures DayCount(diffMs) == -((-diffMs) / MsPerDay)
  {
  }

  /** A later deadline never gives fewer days. */
  lemma DayCountMonotone(a: int, b: int)
    requires a <= b
    ensures DayCount(a) <= DayCount(b)
  {
  }

  /** The outcome of `formatRemainingTime`; `DaysLeft(n)` renders as "n hari lagi". */
  datatype Label = NoLabel | Overdue | DueToday | OneDayLeft | DaysLeft(days: nat)

  /**
   The string the client renders for a label: empty exactly without a deadline, and for one
   day or more the digits of the day count followed by " hari lagi".
   */
  function LabelText(l: Label): (t: string)
    ensures t == [] <==> l == NoLabel
    ensures l == OneDayLeft || l.DaysLeft? ==>
      && |t| > 10 && t[|t| - 10..] == " hari lagi" && '0' <= t[0] <= '9'
      && var count := t[..|t| - 10];
         && (forall i :: 0 <= i < |count| ==> '0' <= count[i] <= '9')
         && Text.DecimalValue(count) == (if l.DaysLeft? then l.days else 1)
         && count == Text.Decimal(if l.DaysLeft? then l.days else 1)
  {
    match l
    case NoLabel => ""
    case Overdue => "Tenggat waktu terlewat"
    case DueToday => "Hari ini"
    case OneDayLeft =>
      assert Text.Decimal(1) == "1";
      "1 hari lagi"
    case DaysLeft(n) =>
      var t := Text.Decimal(n) + " hari lagi";
      Text.DecimalRoundTrip(n);
      assert t[..|t| - 10] == Text.Decimal(n);
      t
  }

  /**
   The label chosen for a deadline `diffMs` milliseconds from now. The day count rounds
   towards positive infinity, so a deadline passed less than a day ago still counts zero days
   (in JavaScript the count is `-0`, and `-0 === 0`): "Hari ini", not overdue.
   */
  function Classify(diffMs: int): (l: Label)
    ensures l != NoLabel
    ensures l == Overdue <==> diffMs <= -MsPerDay
    ensures l == DueToday <==> -MsPerDay < diffMs <= 0
    ensures l == OneDayLeft <==> 0 < diffMs <= MsPerDay
    ensures l.DaysLeft? <==> diffMs > MsPerDay
    ensures l.DaysLeft? ==> l.days >= 2 && MsPerDay * (l.days - 1) < diffMs <= MsPerDay * l.days
  {
    var days := DayCount(diffMs);
    if days < 0 then Overdue
    else if days == 0 then DueToday
    else if days == 1 then OneDayLeft
    else DaysLeft(days)
  }

  /**
   `formatRemainingTime(deadline)`: no label for a missing or empty deadline, otherwise the
   label for the distance from `now` to the deadline. `instant` is what `new Date(s).getTime()`
   yields for a deadline string.
   */
  function FormatRemainingTime(deadline: Option<string>, instant: string -> int, now: int): (l: Label)
    ensures l == NoLabel <==> !HasDeadline(deadline)
    ensures HasDeadline(deadline) ==> l == Classify(instant(deadline.value) - now)
  {
    if !HasDeadline(deadline) then NoLabel
    else Classify(instant(deadline.value) - now)
  }

  /** Labels `Classify` can produce: a "n hari lagi" label always has n of at least two. */
  predicate WellFormed(l: Label) {
    l.DaysLeft? ==> l.days >= 2
  }

  /** Distinct labels render as distinct strings, so the text alone identifies the case. */
  lemma LabelTextInjective(a: Label, b: Label)
    requires WellFormed(a) && WellFormed(b)
    requires LabelText(a) == LabelText(b)
    ensures a == b
  {
  }
}

=== FILE: edittask.dfy ===
/** The edit dialog's form: how it is filled from a task and what it hands back on submit. */
module EditTask {
  import opened Wrappers
  import opened Tasks
  import Text
  import TaskManager

  /** The two controlled fields of the dialog. */
  datatype Form = Form(title: string, deadline: string)

  /** Both fields start empty, so the save button starts disabled and submitting saves nothing. */
  function EmptyForm(): (f: Form)
    ensures f.title == [] && f.deadline == []
    ensures SubmitDisabled(f) && Submit(f).None?
  {
    Form("", "")
  }

  /**
   `toDateTimeLocal(isoDate)`: a missing or empty deadline gives the empty field. `local` is the
   timezone shift and `YYYY-MM-DDTHH:mm` formatting of a present one.
   */
  function ToDateTimeLocal(isoDate: Option<string>, local: string -> string): (field: string)
    ensures !HasDeadline(isoDate) ==> field == ""
    ensures HasDeadline(isoDate) ==> field == local(isoDate.value)
  {
    if !HasDeadline(isoDate) then "" else local(isoDate.value)
  }

  /**
   The effect run when the dialog's task changes: a task fills the fields, no task leaves them.
   The title is never null in the row, so `task.title || ""` is the title itself.
   */
  function LoadTask(form: Form, task: Option<Task>, local: string -> string): (f: Form)
    ensures task.None? ==> f == form
    ensures task.Some? ==> f.title == task.value.title
    ensures task.Some? ==> f.deadline == ToDateTimeLocal(task.value.deadline, local)
  {
    match task
    case None => form
    case Some(t) => Form(t.title, ToDateTimeLocal(t.deadline, local))
  }

  /**
   `handleSubmit`: when the title is not blank, `onSave` receives the trimmed title and the
   deadline field, with an empty field sent as `null`; a blank title saves nothing.
   */
  function Submit(form: Form): (saved: Option<Updates>)
    ensures saved.Some? <==> !Text.IsBlank(form.title)
    ensures saved.Some? ==> saved.value.title == Text.Trim(form.title)
    ensures saved.Some? ==> saved.value.title != "" && Text.IsTrimmed(saved.value.title)
    ensures saved.Some? ==> Text.Trim(saved.value.title) == saved.value.title
    ensures saved.Some? ==> (saved.value.deadline.None? <==> form.deadline == "")
    ensures saved.Some? && saved.value.deadline.Some? ==> saved.value.deadline.value == form.deadline
  {
    Text.TrimEmptyIffBlank(form.title);
    var title := Text.Trim(form.title);
    if title != [] then
      Text.TrimIdempotent(form.title);
      Some(Updates(title, if form.deadline == "" then None else Some(form.deadline)))
    else None
  }

  /**
   Opening a task and saving without touching the fields sends the task's own title back when
   it is already trimmed, and a missing deadline back as `null`.
   */
  lemma SaveUnchanged(form: Form, task: Task, local: string -> string)
    requires task.title != "" && Text.IsTrimmed(task.title)
    ensures var saved := Submit(LoadTask(form, Some(task), local));
      && saved.Some?
      && saved.value.title == task.title
      && (!HasDeadline(task.deadline) ==> saved.value.deadline.None?)
  {
  }

  /** Whether the save button is disabled: the title is empty once trimmed. */
  function SubmitDisabled(form: Form): (disabled: bool)
    ensures disabled <==> Text.IsBlank(form.title)
  {
    Text.TrimEmptyIffBlank(form.title);
    Text.Trim(form.title) == []
  }

  /** The save button is disabled exactly when submitting would save nothing. */
  lemma DisabledIffNothingSaved(form: Form)
    ensures SubmitDisabled(form) <==> Submit(form).None?
  {
  }

  /**
   What the dialog saves always passes the blank-title guard of `handleUpdateTask`: while a
   task is being edited, a submitted form always reaches the store.
   */
  lemma SavedEditReachesStore(form: Form, s: TaskManager.State)
    requires Submit(form).Some? && s.editing.Some?
    ensures TaskManager.UpdateRequest(s, Submit(form).value).Some?
  {
  }
}

=== FILE: seqs.dfy ===
/** Order-preserving filtering of sequences, as `Array.prototype.filter` does it. */
module Seqs {

  /** The elements of `s` that satisfy `keep`, in their original order. */
  function Filter<T>(s: seq<T>, keep: T -> bool): (r: seq<T>)
    ensures |r| <= |s|
    ensures forall i :: 0 <= i < |r| ==> r[i] in s && keep(r[i])
    ensures forall i :: 0 <= i < |s| && keep(s[i]) ==> s[i] in r
  {
    if s == [] then []
    else (if keep(s[0]) then [s[0]] else []) + Filter(s[1..], keep)
  }

  /** Filtering distributes over concatenation: the kept elements keep their relative order. */
  lemma {:induction false} FilterConcat<T>(a: seq<T>, b: seq<T>, keep: T -> bool)
    ensures Filter(a + b, keep) == Filter(a, keep) + Filter(b, keep)
  {
    if a == [] {
      assert a + b == b;
    } else {
      assert (a + b)[0] == a[0];
      assert (a + b)[1..] == a[1..] + b;
      FilterConcat(a[1..], b, keep);
    }
  }

  /** Filtering prepended elements: the head is kept exactly when it satisfies `keep`. */
  lemma FilterCons<T>(x: T, s: seq<T>, keep: T -> bool)
    ensures Filter([x] + s, keep) == (if keep(x) then [x] + Filter(s, keep) else Filter(s, keep))
  {
  }

  /** When every element is kept, filtering changes nothing. */
  lemma {:induction false} FilterKeepsAll<T>(s: seq<T>, keep: T -> bool)
    requires forall i :: 0 <= i < |s| ==> keep(s[i])
    ensures Filter(s, keep) == s
  {
    if s != [] {
      FilterKeepsAll(s[1..], keep);
    }
  }

  /** Filtering twice by the same test is filtering once. */
  lemma {:induction false} FilterIdempotent<T>(s: seq<T>, keep: T -> bool)
    ensures Filter(Filter(s, keep), keep) == Filter(s, keep)
  {
    var r := Filter(s, keep);
    FilterKeepsAll(r, keep);
  }

  /** A test and its complement split a sequence: the two sides together are a permutation of it. */
  lemma {:induction false} FilterPartition<T>(s: seq<T>, keep: T -> bool, drop: T -> bool)
    requires forall i :: 0 <= i < |s| ==> drop(s[i]) == !keep(s[i])
    ensures multiset(Filter(s, keep)) + multiset(Filter(s, drop)) == multiset(s)
    ensures |Filter(s, keep)| + |Filter(s, drop)| == |s|
  {
    if s != [] {
      FilterPartition(s[1..], keep, drop);
      assert s == [s[0]] + s[1..];
    }
  }
}

=== FILE: taskitem.dfy ===
/** The deadline colour of a task row and the text class derived from it. */
module TaskItem {
  import opened Wrappers
  import opened Tasks
  import Text
  import DateUtils

  /** `1000 * 60 * 60`: milliseconds in an hour. */
  const MsPerHour: int := 1000 * 60 * 60

  datatype Colour = Gray | Red | Orange | Green

  /**
   `getDeadlineColor(deadline)`: gray without a deadline; otherwise red once the deadline has
   passed, orange while it is less than 24 hours away, green beyond. The source divides the
   millisecond difference into hours; the contract states the same thresholds in milliseconds.
   */
  function DeadlineColor(deadline: Option<string>, instant: string -> int, now: int): (c: Colour)
    ensures c == Gray <==> !HasDeadline(deadline)
    ensures HasDeadline(deadline) ==>
      var diff := instant(deadline.value) - now;
      && (c == Red <==> diff < 0)
      && (c == Orange <==> 0 <= diff < DateUtils.MsPerDay)
      && (c == Green <==> diff >= DateUtils.MsPerDay)
  {
    if !HasDeadline(deadline) then Gray
    else
      var timeDiff := instant(deadline.value) - now;
      var hoursDiff := timeDiff as real / MsPerHour as real;
      if hoursDiff < 0.0 then Red
      else if hoursDiff < 24.0 then Orange
      else Green
  }

  /** Position of a colour on the urgency scale, most urgent first. */
  function Rank(c: Colour): nat {
    match c
    case Red => 0
    case Orange => 1
    case Green => 2
    case Gray => 3
  }

  /** For a fixed `now`, a later deadline is never shown more urgently: red, then orange, then green. */
  lemma ColourMonotone(d1: string, d2: string, instant: string -> int, now: int)
    requires d1 != "" && d2 != ""
    requires instant(d1) <= instant(d2)
    ensures Rank(DeadlineColor(Some(d1), instant, now)) <= Rank(DeadlineColor(Some(d2), instant, now))
    ensures DeadlineColor(Some(d1), instant, now) != Gray
  {
  }

  /** The text colour class of each colour. */
  function Foreground(c: Colour): string {
    match c
    case Gray => "text-gray-400"
    case Red => "text-red-500"
    case Orange => "text-orange-500"
    case Green => "text-green-500"
  }

  /** The background class that follows the text class for the three deadline colours. */
  function Background(c: Colour): string {
    match c
    case Gray => ""
    case Red => "bg-red-50"
    case Orange => "bg-orange-50"
    case Green => "bg-green-50"
  }

  /**
   The class string `getDeadlineColor` returns: "text-gray-400" alone for gray, otherwise the
   text class and the background class separated by a space ("text-red-500 bg-red-50", ...).
   */
  function Classes(c: Colour): (r: string)
    ensures Foreground(c) <= r
    ensures r == Foreground(c) <==> c == Gray
  {
    if c == Gray then Foreground(c) else Foreground(c) + " " + Background(c)
  }

  /** No text class contains a space. */
  lemma ForegroundHasNoSpace(c: Colour)
    ensures ' ' !in Foreground(c)
  {
  }

  /**
   The class used for the deadline date text, the first space-separated class of the colour:
   its text colour class, which is the whole class string for gray and drops the background
   class for the other colours.
   */
  function TextClass(c: Colour): (r: string)
    ensures r == Foreground(c)
    ensures r == Classes(c) <==> c == Gray
  {
    FirstClassIsForeground(c);
    Text.FirstField(Classes(c), ' ')
  }

  /** Splitting the class string at its first space leaves the text colour class. */
  lemma FirstClassIsForeground(c: Colour)
    ensures Text.FirstField(Classes(c), ' ') == Foreground(c)
  {
    ForegroundHasNoSpace(c);
    if c == Gray {
      Text.FirstFieldWithoutSep(Foreground(c), ' ');
    } else {
      Text.FirstFieldOfJoin(Foreground(c), ' ', Background(c));
    }
  }

  /**
   How the colour and the remaining-time label line up: overdue is always red, and a
   deadline passed by less than a day is red while its label still reads "Hari ini".
   */
  lemma ColourAgreesWithLabel(deadline: string, instant: string -> int, now: int)
    requires deadline != ""
    ensures var l := DateUtils.FormatRemainingTime(Some(deadline), instant, now);
      var c := DeadlineColor(Some(deadline), instant, now);
      && (l == DateUtils.Overdue ==> c == Red)
      && (l.DaysLeft? ==> c == Green)
      && (l == DateUtils.DueToday ==> c != Green)
      && (-DateUtils.MsPerDay < instant(deadline) - now < 0 ==> l == DateUtils.DueToday && c == Red)
  {
  }

  /** A deadline 25 hours ahead counts two started days, so it reads "2 hari lagi" and shows green. */
  lemma TwentyFiveHoursAhead(deadline: string, instant: string -> int, now: int)
    requires deadline != "" && instant(deadline) - now == 25 * MsPerHour
    ensures DateUtils.FormatRemainingTime(Some(deadline), instant, now) == DateUtils.DaysLeft(2)
    ensures DeadlineColor(Some(deadline), instant, now) == Green
  {
  }
}

=== FILE: tasklist.dfy ===
/** Which of its branches the task list renders, and how it splits the tasks into sections. */
module TaskList {
  import opened Tasks
  import Seqs
  import TaskManager

  /** What the list shows: a spinner, the empty state, or the two sections (and possibly the all-done note). */
  datatype View =
    | Spinner
    | EmptyState
    | Sections(active: seq<Task>, done: seq<Task>, showActive: bool, showDone: bool, showAllDone: bool)

  /**
   The task list for `tasks` and `loading`. Loading wins over everything; an empty list shows
   the empty state; otherwise the incomplete and the completed tasks each get a section when
   they have any, and the all-done note can never appear.
   */
  function Render(tasks: seq<Task>, loading: bool): (v: View)
    ensures v == Spinner <==> loading
    ensures v == EmptyState <==> !loading && tasks == []
    ensures v.Sections? ==> v.active == Pending(tasks) && v.done == Done(tasks)
    ensures v.Sections? ==> v.showActive == (v.active != []) && v.showDone == (v.done != [])
    ensures v.Sections? ==> !v.showAllDone && (v.showActive || v.showDone)
  {
    var incompleteTasks := Pending(tasks);
    var completedTasks := Done(tasks);
    if loading then Spinner
    else if |tasks| == 0 then EmptyState
    else
      DonePendingPartition(tasks);
      Sections(
        incompleteTasks, completedTasks,
        |incompleteTasks| > 0, |completedTasks| > 0,
        |incompleteTasks| == 0 && |completedTasks| == 0)
  }

  /**
   The two sections split the tasks: every incomplete task is in the active section, every
   completed one in the done section, and together they hold each task exactly once.
   */
  lemma SectionsPartition(tasks: seq<Task>)
    requires tasks != []
    ensures var v := Render(tasks, false);
      && v.Sections?
      && multiset(v.active) + multiset(v.done) == multiset(tasks)
      && (forall i :: 0 <= i < |v.active| ==> !v.active[i].completed)
      && (forall i :: 0 <= i < |v.done| ==> v.done[i].completed)
  {
    DonePendingPartition(tasks);
  }

  /** A section is shown exactly when some task belongs in it. */
  lemma SectionVisibility(tasks: seq<Task>)
    requires tasks != []
    ensures var v := Render(tasks, false);
      && (v.showActive <==> exists i :: 0 <= i < |tasks| && !tasks[i].completed)
      && (v.showDone <==> exists i :: 0 <= i < |tasks| && tasks[i].completed)
  {
    var v := Render(tasks, false);
    DonePendingPartition(tasks);
    if v.showActive {
      assert v.active[0] in tasks;
    }
    if v.showDone {
      assert v.done[0] in tasks;
    }
  }

  /** Both sections keep the tasks in list order: each acts on the parts of a split list separately. */
  lemma SectionsKeepOrder(a: seq<Task>, b: seq<Task>)
    ensures Pending(a + b) == Pending(a) + Pending(b)
    ensures Done(a + b) == Done(a) + Done(b)
  {
    Seqs.FilterConcat(a, b, IsPending);
    Seqs.FilterConcat(a, b, IsDone);
  }

  /** The section headings count what the statistics count, and together they count every task. */
  lemma SectionCountsMatchStats(tasks: seq<Task>)
    requires tasks != []
    ensures var v, st := Render(tasks, false), TaskManager.TaskStats(tasks);
      && v.Sections?
      && |v.active| == st.remaining
      && |v.done| == st.completed
      && |v.active| + |v.done| == st.total
  {
  }

  /** On mount the list shows the spinner, and the counters read zero. */
  lemma MountShowsSpinner()
    ensures Render(TaskManager.Mount().tasks, TaskManager.Mount().loading) == Spinner
    ensures TaskManager.TaskStats(TaskManager.Mount().tasks) == TaskManager.Stats(0, 0, 0)
  {
  }
}

=== FILE: taskmanager.dfy ===
/**
 The task manager's local state and the transitions its handlers apply once the store has
 answered. Every mutation is confirm-then-apply: the list changes only on a successful reply
 and is left exactly as it was on an error.
 */
module TaskManager {
  import opened Wrappers
  import opened Tasks
  import Seqs
  import Text

  /** The component's state: the list, the loading flag, the task being edited and the add form. */
  datatype State = State(
    tasks: seq<Task>,
    loading: bool,
    editing: Option<Task>,
    newTitle: string,
    newDeadline: string
  )

  /**
   The state on mount: no tasks yet and loading, so the counters read zero; nothing is being
   edited, and the empty add form cannot add anything.
   */
  function Mount(): (m: State)
    ensures m.loading && m.editing.None?
    ensures TaskStats(m.tasks) == Stats(0, 0, 0)
    ensures AddRequest(m).None?
  {
    State([], true, None, "", "")
  }

  /** The counters shown above the list. */
  datatype Stats = Stats(total: nat, completed: nat, remaining: int)

  /** `taskStats`: how many tasks there are, how many are completed and how many remain. */
  function TaskStats(tasks: seq<Task>): (st: Stats)
    ensures st.total == |tasks|
    ensures st.completed == |Done(tasks)| <= st.total
    ensures st.remaining == |Pending(tasks)| >= 0
    ensures st.completed + st.remaining == st.total
  {
    var total := |tasks|;
    var completed := |Done(tasks)|;
    DonePendingPartition(tasks);
    Stats(total, completed, total - completed)
  }

  // ---------------------------------------------------------------- fetch

  /** The start of `fetchTasks`: the loading flag goes up. */
  function BeginFetch(s: State): (r: State)
    ensures r.loading
    ensures r.(loading := s.loading) == s
  {
    s.(loading := true)
  }

  /**
   The end of `fetchTasks`: a successful query replaces the list wholesale, a failed one keeps
   the previous list; loading ends either way.
   */
  function FinishFetch(s: State, reply: Result<seq<Task>, StoreError>): (r: State)
    ensures !r.loading
    ensures reply.Success? ==> r.tasks == reply.value
    ensures reply.Failure? ==> r.tasks == s.tasks
    ensures r.editing == s.editing && r.newTitle == s.newTitle && r.newDeadline == s.newDeadline
  {
    match reply
    case Success(data) => s.(tasks := data, loading := false)
    case Failure(_) => s.(loading := false)
  }

  /**
   The whole of `fetchTasks`, from the loading flag to the store's answer: loading ends, the
   list is the answer on success and the previous list on an error, and nothing else changes.
   */
  function Fetch(s: State, reply: Result<seq<Task>, StoreError>): (r: State)
    ensures !r.loading
    ensures reply.Success? ==> r.tasks == reply.value
    ensures reply.Failure? ==> r.tasks == s.tasks
    ensures r.(tasks := s.tasks, loading := s.loading) == s
  {
    FinishFetch(BeginFetch(s), reply)
  }

  /** Refreshing twice with the same answer leaves the same state as refreshing once. */
  lemma FetchIdempotent(s: State, reply: Result<seq<Task>, StoreError>)
    ensures Fetch(Fetch(s, reply), reply) == Fetch(s, reply)
  {
  }

  /** A successful fetch does not depend on the list it replaces. */
  lemma FetchForgetsPrevious(s: State, t: State, data: seq<Task>)
    requires s.(tasks := t.tasks, loading := t.loading) == t
    ensures Fetch(s, Success(data)) == Fetch(t, Success(data))
  {
  }

  // ---------------------------------------------------------------- add

  /** The row `handleAddTask` asks the store to insert. */
  datatype Insert = Insert(title: string, deadline: Option<string>)

  /**
   The insert `handleAddTask` issues, or `None` when the blank-title guard returns before any
   store call. The title goes out untrimmed; an empty deadline field becomes `null`.
   */
  function AddRequest(s: State): (req: Option<Insert>)
    ensures req.None? <==> Text.IsBlank(s.newTitle)
    ensures req.Some? ==> req.value.title == s.newTitle
    ensures req.Some? ==> (req.value.deadline.None? <==> s.newDeadline == "")
    ensures req.Some? && req.value.deadline.Some? ==> req.value.deadline.value == s.newDeadline
  {
    Text.TrimEmptyIffBlank(s.newTitle);
    if Text.Trim(s.newTitle) == [] then None
    else Some(Insert(s.newTitle, if s.newDeadline == "" then None else Some(s.newDeadline)))
  }

  /**
   `handleAddTask` once the store has answered the insert: the returned row goes to the front
   of the list and the form is cleared; an error, or a blank title, changes nothing.
   */
  function AddTask(s: State, reply: Result<Task, StoreError>): (r: State)
    ensures AddRequest(s).None? || reply.Failure? ==> r == s
    ensures AddRequest(s).Some? && reply.Success? ==>
      && |r.tasks| == |s.tasks| + 1
      && r.tasks[0] == reply.value
      && r.tasks[1..] == s.tasks
      && r.newTitle == "" && r.newDeadline == ""
      && r.loading == s.loading && r.editing == s.editing
  {
    if AddRequest(s).None? then s
    else
      match reply
      case Success(data) => s.(tasks := [data] + s.tasks, newTitle := "", newDeadline := "")
      case Failure(_) => s
  }

  /** Adding a task counts it: one more in total, and one more completed when it arrives completed. */
  lemma AddTaskStats(s: State, data: Task)
    requires AddRequest(s).Some?
    ensures var before, after := TaskStats(s.tasks), TaskStats(AddTask(s, Success(data)).tasks);
      && after.total == before.total + 1
      && after.completed == before.completed + (if data.completed then 1 else 0)
  {
  }

  // ---------------------------------------------------------------- toggle

  /** A copy of the record with its own completed flag negated. */
  function Flip(t: Task): (f: Task)
    ensures f.completed != t.completed
    ensures f.(completed := t.completed) == t
  {
    t.(completed := !t.completed)
  }

  /** `t` and `u` agree on every field but `completed`. */
  predicate SameButCompleted(t: Task, u: Task) {
    t.(completed := u.completed) == u
  }

  /** The list after the local toggle: records with the id flip their own flag, the rest stay. */
  function ToggleById(tasks: seq<Task>, id: TaskId): (r: seq<Task>)
    ensures |r| == |tasks|
    ensures forall i :: 0 <= i < |tasks| ==>
      SameButCompleted(r[i], tasks[i]) && (r[i].completed != tasks[i].completed <==> tasks[i].id == id)
  {
    if tasks == [] then []
    else [if tasks[0].id == id then Flip(tasks[0]) else tasks[0]] + ToggleById(tasks[1..], id)
  }

  /** The update `handleToggleComplete` sends: the task's id and its negated `completed` flag. */
  function ToggleRequest(task: Task): (req: (TaskId, bool))
    ensures req.0 == task.id && req.1 != task.completed
  {
    (task.id, !task.completed)
  }

  /**
   `handleToggleComplete(task)` once the store has answered: on success every record with the
   task's id has its own flag flipped; on error nothing changes.
   */
  function ToggleComplete(s: State, task: Task, reply: Outcome<StoreError>): (r: State)
    ensures reply.Fail? ==> r == s
    ensures reply.Pass? ==> r.(tasks := s.tasks) == s && |r.tasks| == |s.tasks|
    ensures reply.Pass? ==> forall i :: 0 <= i < |s.tasks| ==>
      && SameButCompleted(r.tasks[i], s.tasks[i])
      && (r.tasks[i].completed <==> (s.tasks[i].completed != (s.tasks[i].id == task.id)))
  {
    match reply
    case Pass => s.(tasks := ToggleById(s.tasks, task.id))
    case Fail(_) => s
  }

  /** Flipping the same id twice restores the list, because each flip negates the record's own flag. */
  lemma ToggleByIdTwice(tasks: seq<Task>, id: TaskId)
    ensures ToggleById(ToggleById(tasks, id), id) == tasks
  {
  }

  /** Two successful toggles of the same task restore the original state. */
  lemma ToggleTwice(s: State, task: Task, again: Task)
    requires again.id == task.id
    ensures ToggleComplete(ToggleComplete(s, task, Pass), again, Pass) == s
  {
  }

  // ---------------------------------------------------------------- delete

  /** The test that keeps records whose id differs from `id`. */
  function OtherThan(id: TaskId): Task -> bool {
    (t: Task) => t.id != id
  }

  /** The list after a local delete: the records with another id, in list order. */
  function WithoutId(tasks: seq<Task>, id: TaskId): (r: seq<Task>)
    ensures |r| <= |tasks|
    ensures forall i :: 0 <= i < |r| ==> r[i].id != id && r[i] in tasks
    ensures forall i :: 0 <= i < |tasks| && tasks[i].id != id ==> tasks[i] in r
  {
    Seqs.Filter(tasks, OtherThan(id))
  }

  /**
   `handleDeleteTask(id)` once the store has answered: on success every record with that id
   leaves the list and the rest keep their order; on error nothing changes.
   */
  function DeleteTask(s: State, id: TaskId, reply: Outcome<StoreError>): (r: State)
    ensures reply.Fail? ==> r == s
    ensures reply.Pass? ==> r.(tasks := s.tasks) == s
    ensures reply.Pass? ==> forall i :: 0 <= i < |r.tasks| ==> r.tasks[i].id != id
    ensures reply.Pass? ==> forall i :: 0 <= i < |s.tasks| && s.tasks[i].id != id ==> s.tasks[i] in r.tasks
    ensures reply.Pass? ==> r.tasks == WithoutId(s.tasks, id) && |r.tasks| <= |s.tasks|
  {
    match reply
    case Pass => s.(tasks := WithoutId(s.tasks, id))
    case Fail(_) => s
  }

  /** Deleting keeps the survivors in order: it acts on each part of a split list separately. */
  lemma WithoutIdConcat(a: seq<Task>, b: seq<Task>, id: TaskId)
    ensures WithoutId(a + b, id) == WithoutId(a, id) + WithoutId(b, id)
  {
    Seqs.FilterConcat(a, b, OtherThan(id));
  }

  /** Deleting the same id twice is deleting it once. */
  lemma DeleteIdempotent(s: State, id: TaskId)
    ensures DeleteTask(DeleteTask(s, id, Pass), id, Pass) == DeleteTask(s, id, Pass)
  {
    Seqs.FilterIdempotent(s.tasks, OtherThan(id));
  }

  /** Deleting an id nobody has leaves the list as it was. */
  lemma DeleteAbsent(tasks: seq<Task>, id: TaskId)
    requires forall i :: 0 <= i < |tasks| ==> tasks[i].id != id
    ensures WithoutId(tasks, id) == tasks
  {
    Seqs.FilterKeepsAll(tasks, OtherThan(id));
  }

  /** Deleting a freshly added task with a new id gives back the list from before the add. */
  lemma AddThenDelete(s: State, data: Task)
    requires AddRequest(s).Some?
    requires forall i :: 0 <= i < |s.tasks| ==> s.tasks[i].id != data.id
    ensures DeleteTask(AddTask(s, Success(data)), data.id, Pass).tasks == s.tasks
  {
    Seqs.FilterCons(data, s.tasks, OtherThan(data.id));
    DeleteAbsent(s.tasks, data.id);
  }

  // ---------------------------------------------------------------- edit

  /** The list after a local edit: records with the id become the returned row, the rest stay. */
  function ReplaceById(tasks: seq<Task>, id: TaskId, data: Task): (r: seq<Task>)
    ensures |r| == |tasks|
    ensures forall i :: 0 <= i < |tasks| && tasks[i].id == id ==> r[i] == data
    ensures forall i :: 0 <= i < |tasks| && tasks[i].id != id ==> r[i] == tasks[i]
  {
    if tasks == [] then []
    else [if tasks[0].id == id then data else tasks[0]] + ReplaceById(tasks[1..], id, data)
  }

  /**
   The update `handleUpdateTask` sends, or `None` when it returns early: no task is being
   edited, or the new title is blank. The title goes out as given.
   */
  function UpdateRequest(s: State, updates: Updates): (req: Option<(TaskId, Updates)>)
    ensures req.None? <==> s.editing.None? || Text.IsBlank(updates.title)
    ensures req.Some? ==> req.value == (s.editing.value.id, updates)
  {
    Text.TrimEmptyIffBlank(updates.title);
    if s.editing.None? || Text.Trim(updates.title) == [] then None
    else Some((s.editing.value.id, updates))
  }

  /**
   `handleUpdateTask(updates)` once the store has answered: a returned row replaces every
   record with the edited id and the edit target is cleared. An error, an empty answer or an
   early return leaves both the list and the edit target as they were.
   */
  function UpdateTask(s: State, updates: Updates, reply: Result<Option<Task>, StoreError>): (r: State)
    ensures UpdateRequest(s, updates).None? || reply.Failure? || reply == Success(None) ==> r == s
    ensures UpdateRequest(s, updates).Some? && reply.Success? && reply.value.Some? ==>
      var id, data := s.editing.value.id, reply.value.value;
      && r.editing.None?
      && r.(tasks := s.tasks, editing := s.editing) == s
      && |r.tasks| == |s.tasks|
      && (forall i :: 0 <= i < |s.tasks| && s.tasks[i].id == id ==> r.tasks[i] == data)
      && (forall i :: 0 <= i < |s.tasks| && s.tasks[i].id != id ==> r.tasks[i] == s.tasks[i])
  {
    if UpdateRequest(s, updates).None? then s
    else
      match reply
      case Failure(_) => s
      case Success(None) => s
      case Success(Some(data)) => s.(tasks := ReplaceById(s.tasks, s.editing.value.id, data), editing := None)
  }

  /**
   Replacing by id is idempotent for any replacement row: a row that keeps the id is found and
   replaced by itself, and one with another id leaves nothing left to match.
   */
  lemma ReplaceByIdIdempotent(tasks: seq<Task>, id: TaskId, data: Task)
    ensures ReplaceById(ReplaceById(tasks, id, data), id, data) == ReplaceById(tasks, id, data)
  {
  }

  /** Editing or toggling a record and then deleting it is the same as deleting it straight away. */
  lemma {:induction false} DeleteAfterChange(tasks: seq<Task>, id: TaskId, data: Task)
    requires data.id == id
    ensures WithoutId(ReplaceById(tasks, id, data), id) == WithoutId(tasks, id)
    ensures WithoutId(ToggleById(tasks, id), id) == WithoutId(tasks, id)
  {
    if tasks != [] {
      DeleteAfterChange(tasks[1..], id, data);
      var h := tasks[0];
      Seqs.FilterCons(if h.id == id then data else h, ReplaceById(tasks[1..], id, data), OtherThan(id));
      Seqs.FilterCons(if h.id == id then Flip(h) else h, ToggleById(tasks[1..], id), OtherThan(id));
      Seqs.FilterCons(h, tasks[1..], OtherThan(id));
      assert tasks == [h] + tasks[1..];
    }
  }

  /**
   Adding "Buy milk" to an empty list and then ticking it off: the list holds the one record,
   first counted as remaining and then as completed.
   */
  lemma BuyMilkScenario(s: State, data: Task)
    requires s.tasks == [] && s.newTitle == "Buy milk" && s.newDeadline == ""
    requires data.title == "Buy milk" && !data.completed && data.deadline.None?
    ensures AddRequest(s) == Some(Insert("Buy milk", None))
    ensures var added := AddTask(s, Success(data));
      && added.tasks == [data]
      && TaskStats(added.tasks) == Stats(1, 0, 1)
      && var ticked := ToggleComplete(added, data, Pass);
      && ticked.tasks == [data.(completed := true)]
      && TaskStats(ticked.tasks) == Stats(1, 1, 0)
  {
  }

  /** The list's edit action: choose the task the edit dialog works on. */
  function StartEdit(s: State, task: Task): (r: State)
    ensures r.editing == Some(task) && r.(editing := s.editing) == s
  {
    s.(editing := Some(task))
  }

  /** The dialog's close action: dismiss it without saving. */
  function CloseEdit(s: State): (r: State)
    ensures r.editing.None? && r.(editing := s.editing) == s
  {
    s.(editing := None)
  }
}

=== FILE: tasks.dfy ===
/** The task record as the store returns it, and the list queries every view shares. */
module Tasks {
  import opened Wrappers
  import Seqs

  /** The store-assigned identifier; the client only ever compares two of them for equality. */
  type TaskId(==)

  /** A row of the `tasks` table. Timestamps and the deadline are the store's ISO strings. */
  datatype Task = Task(
    id: TaskId,
    title: string,
    completed: bool,
    deadline: Option<string>,
    createdAt: string,
    updatedAt: string
  )

  /** The title and deadline an edit sends to the store. */
  datatype Updates = Updates(title: string, deadline: Option<string>)

  /** Whatever the store reports instead of data. */
  datatype StoreError = StoreError(message: string)

  /** JavaScript truthiness of a `string | null` deadline: `null` and `""` both count as absent. */
  predicate HasDeadline(deadline: Option<string>) {
    deadline.Some? && deadline.value != ""
  }

  predicate IsDone(t: Task) {
    t.completed
  }

  predicate IsPending(t: Task) {
    !t.completed
  }

  /** The completed tasks, in list order. */
  function Done(tasks: seq<Task>): seq<Task> {
    Seqs.Filter(tasks, IsDone)
  }

  /** The tasks not yet completed, in list order. */
  function Pending(tasks: seq<Task>): seq<Task> {
    Seqs.Filter(tasks, IsPending)
  }

  /**
   Every task is in exactly one of the two lists: together they are a permutation of `tasks`,
   every member of each satisfies its test, and no task satisfying a test is missing from it.
   */
  lemma DonePendingPartition(tasks: seq<Task>)
    ensures multiset(Done(tasks)) + multiset(Pending(tasks)) == multiset(tasks)
    ensures |Done(tasks)| + |Pending(tasks)| == |tasks|
    ensures forall i :: 0 <= i < |Done(tasks)| ==> Done(tasks)[i].completed
    ensures forall i :: 0 <= i < |Pending(tasks)| ==> !Pending(tasks)[i].completed
    ensures forall i :: 0 <= i < |tasks| ==> tasks[i] in Done(tasks) || tasks[i] in Pending(tasks)
  {
    Seqs.FilterPartition(tasks, IsDone, IsPending);
  }
}

=== FILE: text.dfy ===
/**
 The string operations the client applies to user input: `String.prototype.trim`,
 the first field of `split(sep)`, ASCII upper-casing and decimal rendering.
 */
module Text {

  /** The code points `trim` strips: ECMAScript WhiteSpace and LineTerminator. */
  predicate IsWhitespace(c: char) {
    || c == '\t' || c == '\n' || c == '\U{000B}' || c == '\U{000C}' || c == '\r'
    || c == ' ' || c == '\U{00A0}' || c == '\U{1680}'
    || ('\U{2000}' <= c <= '\U{200A}')
    || c == '\U{2028}' || c == '\U{2029}' || c == '\U{202F}' || c == '\U{205F}'
    || c == '\U{3000}' || c == '\U{FEFF}'
  }

  /** Every character of `s` in `[lo, hi)` is whitespace. */
  predicate BlankRange(s: string, lo: nat, hi: nat)
    requires lo <= hi <= |s|
  {
    forall j :: lo <= j < hi ==> IsWhitespace(s[j])
  }

  /** Every character of `s` is whitespace (vacuously so for the empty string). */
  predicate IsBlank(s: string) {
    BlankRange(s, 0, |s|)
  }

  /** Neither end of `s` is whitespace. */
  predicate IsTrimmed(s: string) {
    s == [] || (!IsWhitespace(s[0]) && !IsWhitespace(s[|s| - 1]))
  }

  /** The first position at or after `i` that does not hold whitespace, or `|s|`. */
  function SkipBlanks(s: string, i: nat): (k: nat)
    requires i <= |s|
    ensures i <= k <= |s|
    ensures BlankRange(s, i, k)
    ensures k == |s| || !IsWhitespace(s[k])
    decreases |s| - i
  {
    if i == |s| || !IsWhitespace(s[i]) then i else SkipBlanks(s, i + 1)
  }

  /** The end of `s[lo..hi]` once its trailing whitespace is dropped. */
  function DropTrailingBlanks(s: string, lo: nat, hi: nat): (e: nat)
    requires lo <= hi <= |s|
    ensures lo <= e <= hi
    ensures BlankRange(s, e, hi)
    ensures e == lo || !IsWhitespace(s[e - 1])
    decreases hi
  {
    if hi == lo || !IsWhitespace(s[hi - 1]) then hi else DropTrailingBlanks(s, lo, hi - 1)
  }

  /** `s.trim()`: the infix of `s` left once whitespace is stripped from both ends. */
  function Trim(s: string): (r: string)
    ensures IsTrimmed(r)
    ensures var k := SkipBlanks(s, 0);
      && k + |r| <= |s| && r == s[k..k + |r|]
      && BlankRange(s, 0, k) && BlankRange(s, k + |r|, |s|)
  {
    var k := SkipBlanks(s, 0);
    var e := DropTrailingBlanks(s, k, |s|);
    s[k..e]
  }

  /** `!s.trim()` in JavaScript: trimming leaves nothing exactly when the string is blank. */
  lemma TrimEmptyIffBlank(s: string)
    ensures Trim(s) == [] <==> IsBlank(s)
  {
  }

  /** A trimmed string is its own trim, so trimming is idempotent. */
  lemma TrimOfTrimmed(s: string)
    requires IsTrimmed(s)
    ensures Trim(s) == s
  {
  }

  /** Trimming twice is trimming once. */
  lemma TrimIdempotent(s: string)
    ensures Trim(Trim(s)) == Trim(s)
  {
    TrimOfTrimmed(Trim(s));
  }

  /** The first position at or after `i` holding `sep`, or `|s|` when there is none. */
  function FindSeparator(s: string, sep: char, i: nat): (k: nat)
    requires i <= |s|
    ensures i <= k <= |s|
    ensures forall j :: i <= j < k ==> s[j] != sep
    ensures k == |s| || s[k] == sep
    decreases |s| - i
  {
    if i == |s| || s[i] == sep then i else FindSeparator(s, sep, i + 1)
  }

  /** `s.split(sep)[0]`: the text before the first `sep`, or all of `s` when it has none. */
  function FirstField(s: string, sep: char): (r: string)
    ensures r <= s
    ensures sep !in r
    ensures |r| == |s| || s[|r|] == sep
  {
    var k := FindSeparator(s, sep, 0);
    assert forall j :: 0 <= j < k ==> s[..k][j] == s[j];
    s[..k]
  }

  /** The first field of `a + [sep] + b` is `a` when `a` holds no `sep`. */
  lemma FirstFieldOfJoin(a: string, sep: char, b: string)
    requires sep !in a
    ensures FirstField(a + [sep] + b, sep) == a
  {
    var s := a + [sep] + b;
    var r := FirstField(s, sep);
    assert s[|a|] == sep;
    assert s[..|a|] == a;
  }

  /** Without a separator, the first field is the whole string. */
  lemma FirstFieldWithoutSep(s: string, sep: char)
    requires sep !in s
    ensures FirstField(s, sep) == s
  {
  }

  /** `toUpperCase` on one character, for the ASCII letters. */
  function ToUpper(c: char): (u: char)
    ensures 'a' <= c <= 'z' ==> 'A' <= u <= 'Z' && u as int - c as int == 'A' as int - 'a' as int
    ensures !('a' <= c <= 'z') ==> u == c
  {
    if 'a' <= c <= 'z' then (c as int - 'a' as int + 'A' as int) as char else c
  }

  /** The decimal digit character for `d`. */
  function Digit(d: nat): char
    requires d < 10
  {
    ('0' as int + d) as char
  }

  /** The value of a decimal digit character. */
  function DigitValue(c: char): nat
    requires '0' <= c <= '9'
  {
    c as int - '0' as int
  }

  /** The value of a string of decimal digits, most significant first. */
  function DecimalValue(s: string): nat
    requires forall i :: 0 <= i < |s| ==> '0' <= s[i] <= '9'
  {
    if s == [] then 0 else DecimalValue(s[..|s| - 1]) * 10 + DigitValue(s[|s| - 1])
  }

  /** `${n}`: the decimal rendering of a natural number, without leading zeros. */
  function Decimal(n: nat): (r: string)
    ensures r != []
    ensures forall i :: 0 <= i < |r| ==> '0' <= r[i] <= '9'
    ensures r[0] == '0' ==> n == 0
  {
    if n < 10 then [Digit(n)] else Decimal(n / 10) + [Digit(n % 10)]
  }

  /** Reading back a rendered number gives the number: the rendering is injective. */
  lemma {:induction false} DecimalRoundTrip(n: nat)
    ensures DecimalValue(Decimal(n)) == n
  {
    if n >= 10 {
      DecimalRoundTrip(n / 10);
      var r := Decimal(n);
      assert r[..|r| - 1] == Decimal(n / 10);
    }
  }
}

=== FILE: userprofile.dfy ===
/** The name, initial and greeting the profile button derives from the signed-in user. */
module UserProfile {
  import opened Wrappers
  import Text

  /** The parts of the session user the profile reads: `email` and `user_metadata.full_name`. */
  datatype User = User(email: Option<string>, fullName: Option<string>)

  /** The user has a non-empty full name in their metadata. */
  predicate HasFullName(user: Option<User>) {
    user.Some? && user.value.fullName.Some? && user.value.fullName.value != ""
  }

  /**
   The display name, by falling back along a chain: a non-empty full name wins, then the part of
   the email before its first '@' (all of it without one) when that is non-empty, then "User".
   */
  function DisplayName(user: Option<User>): (name: string)
    ensures name != ""
    ensures HasFullName(user) ==> name == user.value.fullName.value
    ensures !HasFullName(user) && (user.None? || user.value.email.None?) ==> name == "User"
    ensures !HasFullName(user) && user.Some? && user.value.email.Some? ==>
      var e := user.value.email.value;
      if e == [] || e[0] == '@' then name == "User"
      else name <= e && '@' !in name && (|name| == |e| || e[|name|] == '@')
  {
    if HasFullName(user) then user.value.fullName.value
    else if user.Some? && user.value.email.Some? && Text.FirstField(user.value.email.value, '@') != "" then
      Text.FirstField(user.value.email.value, '@')
    else "User"
  }

  /** The avatar letter: the display name's first character, upper-cased. */
  function Initial(user: Option<User>): (initial: string)
    ensures |initial| == 1
    ensures initial[0] == Text.ToUpper(DisplayName(user)[0])
    ensures !('a' <= initial[0] <= 'z')
  {
    var name := DisplayName(user);
    [Text.ToUpper(name[0])]
  }

  /** The word the greeting "Hai, …" uses: the display name up to its first space. */
  function GreetingName(user: Option<User>): (word: string)
    ensures var name := DisplayName(user);
      word <= name && ' ' !in word && (|word| == |name| || name[|word|] == ' ')
  {
    Text.FirstField(DisplayName(user), ' ')
  }

  /** The greeting line. */
  function Greeting(user: Option<User>): (g: string)
    ensures |g| >= 5 && g[..5] == "Hai, " && g[5..] == GreetingName(user)
  {
    "Hai, " + GreetingName(user)
  }
}

=== FILE: wrappers.dfy ===
/** The shapes of the store's replies, and JavaScript's nullable values. */
module Wrappers {

  /** A value that may be absent: JavaScript's `null` / `undefined`. */
  datatype Option<+T> = None | Some(value: T)

  /** A store reply that carries a record on success: `{ data, error }` with exactly one set. */
  datatype Result<+R, +E> = Success(value: R) | Failure(error: E)

  /** A store reply that carries no record: `{ error }`, where `null` means success. */
  datatype Outcome<+E> = Pass | Fail(error: E)
}
